=== FILE: README.md ===
# Local authentication flow of BetterProject, in Dafny

This project models the local username/password authentication of a React
Native app. The app keeps registered users as a JSON list under the
`users` storage key. It can remember one login under the `credentials` key.
A Redux reducer holds the session user, and a navigation gate shows either
the Home screen or the Login/Register screens. The model assumes that
submissions never overlap: the app does not prevent two quick taps from
starting two handlers whose storage calls interleave. Under that
assumption each handler becomes a pure function from (form, storage,
reducer state, storage-device behaviour) to (outcome, storage, reducer
state).

Modules, one per source file or component:

- `Optional`: the `None`/`Some` wrapper for absent keys and failed lookups.
- `PasswordPolicy` (`src/screens/NonAuth/register.tsx`):
  - the five-condition checklist `passwordValidation`;
  - the four-condition strength score, which leaves out lowercase;
  - the three style flags of the strength bar.
- `CredentialStore`: the two storage keys and the two ways the list is parsed:
  - `JSON.parse(data || '[]')` when registering;
  - `JSON.parse(data)` when logging in.

  It also holds the first-match `find`. A `Device` value says whether reads
  and writes succeed. A failing call stores nothing.
- `Register` (`register.tsx`): the Yup schema as a set of broken rules, `handleRegister`, and the submit pipeline.
- `Login` (`src/screens/NonAuth/login.tsx`): the remember-me pre-fill, the required-field `validate`, `handleLogin`, and the submit pipeline.
- `Session` (`src/redux/reducers.jsx`): `initialState` and `reducer`.
- `Navigation` (`src/Main.tsx`): the gate on `session?.username` and the two screen stacks.
- `Home` (`src/screens/Auth/Home.tsx`): `handleLogout` and the greeting name.
- `AuthFlow`: the screens composed into one state machine over storage and reducer state. It proves:
  - the invariant every reachable state keeps: stored usernames are unique and non-empty, and passwords meet the policy;
  - a session user is always a stored record;
  - the register-then-login scenario.

Behaviour worth noting:

- When the `users` key is absent, login ends in the generic "Something went
  wrong". It does not report "Invalid username": `JSON.parse(null)` yields
  `null`, and calling `find` on it throws. Registration treats the same
  absent key as an empty list.
- The strength score leaves out the lowercase condition. A password can
  therefore show 100% and still be refused ("ABCDEF1!",
  `FullStrengthNotCompliant`).
- `App.tsx` wires redux-persist; `src/redux/store` is not modelled, so
  every run starts from `initialState`.

## Model

| member | source | states |
|---|---|---|
| `PasswordPolicy.Validation` | src/screens/NonAuth/register.tsx:63-71 | The checklist is all false for the empty password. A set class flag implies a non-empty password, and all five flags imply length at least 8 |
| `PasswordPolicy.Exhibit` | src/screens/NonAuth/register.tsx:63-71 | The five flags are independent: for every combination there is a password whose checklist is exactly that combination |
| `PasswordPolicy.AllConditionsExample` | src/screens/NonAuth/register.tsx:63-71 | "Abcdef1!" meets all five conditions |
| `PasswordPolicy.LowercaseOnlyExample` | src/screens/NonAuth/register.tsx:63-71 | "abcdefgh" meets exactly the length and lowercase conditions |
| `PasswordPolicy.Strength` | src/screens/NonAuth/register.tsx:14-22 | The score is exactly 25 times the number of satisfied scored conditions (length, uppercase, digit, special), so at most 100. It is 100 iff all four hold, and 0 iff none does |
| `PasswordPolicy.MetCount` | src/screens/NonAuth/register.tsx:15-19 | The number of satisfied scored conditions equals the sum of the four one-point increments |
| `PasswordPolicy.MetMembers` | src/screens/NonAuth/register.tsx:16-19 | A scored condition is counted exactly when the password satisfies it |
| `PasswordPolicy.LowercaseIsUnscored` | src/screens/NonAuth/register.tsx:14-21 | No lowercase letter belongs to a scored class |
| `PasswordPolicy.StrengthIgnoresLowercase` | src/screens/NonAuth/register.tsx:14-21 | Swapping characters outside the scored classes (lowercase letters among them) for others of that kind leaves the score unchanged |
| `PasswordPolicy.CompliantIsFullStrength` | src/screens/NonAuth/register.tsx:14-35 | A password that meets the full policy scores 100 |
| `PasswordPolicy.FullStrengthNotCompliant` | src/screens/NonAuth/register.tsx:14-35 | "ABCDEF1!" scores 100 yet breaks the lowercase rule of the schema |
| `PasswordPolicy.BandOf` | src/screens/NonAuth/register.tsx:160-162 | The band is strong, medium or weak exactly when the matching style flag (>= 75, 50..74, < 50) is set |
| `PasswordPolicy.ExactlyOneStyle` | src/screens/NonAuth/register.tsx:160-162 | For any score exactly one of the three style flags is set |
| `PasswordPolicy.BandOfStrength` | src/screens/NonAuth/register.tsx:160-162 | A password's band is strong iff at least three scored conditions hold, medium iff exactly two hold, and weak iff at most one holds |
| `PasswordPolicy.StrengthBar` | src/screens/NonAuth/register.tsx:153-170 | The bar is absent iff the password is empty. Otherwise it is strong iff at least three scored conditions hold, medium iff exactly two hold, and weak iff at most one holds |
| `CredentialStore.ListOrEmpty` | src/screens/NonAuth/register.tsx:42-43 | Registration reads an absent key or empty text as the empty list and a stored list as exactly that list. It fails only on malformed text |
| `CredentialStore.ListStrict` | src/screens/NonAuth/login.tsx:42-44 | Login gets a list only when a list of records is stored. It then agrees with the registration reading |
| `CredentialStore.FirstMatch` | src/screens/NonAuth/login.tsx:44 | The position found holds an exact (case-sensitive) username match with no match before it. There is no position iff no record matches |
| `CredentialStore.Find` | src/screens/NonAuth/register.tsx:45 | The record found is the first in the list with the name. Nothing is found iff no record has the name |
| `CredentialStore.FindUnique` | src/screens/NonAuth/login.tsx:44 | With unique usernames, looking up any stored record's name returns that record |
| `CredentialStore.AppendKeepsUnique` | src/screens/NonAuth/register.tsx:45-53 | Appending a record whose name is not found keeps usernames pairwise distinct |
| `CredentialStore.FindAppended` | src/screens/NonAuth/register.tsx:52-53 | After appending a record under a free name, looking that name up returns the appended record |
| `CredentialStore.FindAppendedOther` | src/screens/NonAuth/register.tsx:52 | Appending does not change the lookup of a name that was already present |
| `Register.SchemaErrors` | src/screens/NonAuth/register.tsx:24-36 | The form is accepted iff the username is non-empty, the password meets all five conditions and the confirmation equals the password. An empty field reports only that it is required. Each length and pattern rule is reported iff the password is non-empty and fails that rule. A mismatch is reported iff the confirmation is non-empty and differs |
| `Register.EmptyPasswordReportsRequired` | src/screens/NonAuth/register.tsx:26-35 | An empty password and confirmation break only the two `required` rules |
| `Register.EmptyConfirmationReportsRequired` | src/screens/NonAuth/register.tsx:33-35 | A compliant password with an empty confirmation breaks only the confirmation's `required` rule |
| `Register.HandleRegister` | src/screens/NonAuth/register.tsx:38-61 | "Taken" iff the read list already has the exact name. On success the new record is appended at the end. Any other outcome leaves storage unchanged, and credentials are never touched |
| `Register.SubmitRegister` | src/screens/NonAuth/register.tsx:76-80 | An invalid form reports the schema's errors and writes nothing. A valid form runs the handler and gets exactly its result. A registered user has a non-empty name and a compliant password |
| `Register.FirstRegistration` | src/screens/NonAuth/register.tsx:42-53 | With `users` absent, a registration stores a one-element list |
| `Register.DuplicateRefused` | src/screens/NonAuth/register.tsx:45-50 | A stored name is refused for any password and the storage is unchanged |
| `Register.RegisterKeepsUnique` | src/screens/NonAuth/register.tsx:52-53 | Registration keeps earlier records in place and in order, adds the new one last, and preserves username uniqueness |
| `Login.PreFill` | src/screens/NonAuth/login.tsx:15-36 | The form starts filled with the remembered pair and the box on iff a readable pair with both fields non-empty is stored. Otherwise the defaults stay |
| `Login.FieldErrors` | src/screens/NonAuth/login.tsx:82-91 | Each empty field is reported, and the form passes iff both fields are non-empty |
| `Login.HandleLogin` | src/screens/NonAuth/login.tsx:38-74 | There are distinct invalid-username and wrong-password outcomes, and neither changes anything. An absent list gives the generic error. Login succeeds iff storage is readable and writable, a list is stored and its first record with the name has the entered password. On success the session is the matched record, and credentials are written or removed per the box. `users` never changes |
| `Login.SubmitLogin` | src/screens/NonAuth/login.tsx:79-92 | An incomplete form reports its field errors and changes nothing. A complete form runs the handler and gets exactly its result. A login succeeds only with both fields filled |
| `Login.RememberedCredentialsPreFill` | src/screens/NonAuth/login.tsx:56-60 | After a successful login, the next pre-fill shows the entered pair when the box was ticked, and the defaults otherwise |
| `Login.StoredUsersAuthenticate` | src/screens/NonAuth/login.tsx:44-54 | With unique usernames, every stored user logs in with their password and is refused as "wrong password" with any other |
| `Session.Username` | src/Main.tsx:20 | Optional chaining yields the record's username for a user record, and nothing for `null` or `{}` |
| `Session.Reduce` | src/redux/reducers.jsx:7-16 | `SET_USER` installs exactly the payload user and keeps other fields. Other actions return the state unchanged. An undefined state starts from `initialState` |
| `Session.InitialHasNoUsername` | src/redux/reducers.jsx:3-5 | The initial user `{}` has no username |
| `Session.FirstCallYieldsInitial` | src/redux/reducers.jsx:7 | The reducer's first call (undefined state, other action) gives `initialState` |
| `Session.SetUserForgetsPrevious` | src/redux/reducers.jsx:8-12 | The result of `SET_USER` does not depend on the previous user |
| `Session.SetUserIdempotent` | src/redux/reducers.jsx:8-13 | The same `SET_USER` applied twice equals it applied once |
| `Navigation.Gate` | src/Main.tsx:20-35 | Home is mounted iff the username is truthy, and Login and Register iff it is not. The initial route is a mounted screen, Login for guests |
| `Navigation.InitialStateIsGuest` | src/Main.tsx:20 | The initial state routes to the Login/Register stack |
| `Navigation.NullUserIsGuest` | src/Main.tsx:15-20 | A `null` user routes to the Login/Register stack |
| `Navigation.EmptyUsernameIsGuest` | src/Main.tsx:20 | A record with an empty username routes to the Login/Register stack |
| `Home.Logout` | src/screens/Auth/Home.tsx:12-21 | Logout leaves a `null` user and the other fields. The gate then shows the Login/Register stack, whatever the previous session |
| `Home.LogoutIdempotent` | src/screens/Auth/Home.tsx:12-14 | Logging out twice is logging out once, and a `null` session stays as it is |
| `Home.Greeting` | src/screens/Auth/Home.tsx:25 | The greeting is the username when it is truthy, else "Guest", and never empty |
| `AuthFlow.Step` | src/screens/Auth/Home.tsx:12-14 | Logout installs exactly the state `Home.Logout` produces, leaves both storage keys alone and ends unauthenticated. Registration leaves the session and credentials alone. Login leaves the user list alone |
| `AuthFlow.FreshSatisfiesInvariant` | src/redux/reducers.jsx:3-5 | A fresh install (no stored keys, initial state) satisfies the invariant |
| `AuthFlow.StepKeepsInvariant` | src/screens/NonAuth/register.tsx:45-53 | Every event keeps the stored list unique, with non-empty names and compliant passwords, and keeps the session user a stored record |
| `AuthFlow.RunKeepsInvariant` | src/screens/NonAuth/register.tsx:45-53 | The same invariant holds after any sequence of events |
| `AuthFlow.HomeOnlyForRegisteredUsers` | src/Main.tsx:20-25 | From a fresh install, Home is shown only for a stored user whose password meets the policy |
| `AuthFlow.RegisterThenLogin` | src/screens/NonAuth/login.tsx:42-67 | A successful registration followed by a login with the same pair authenticates as the new record |
| `AuthFlow.BobRegisters` | src/screens/NonAuth/register.tsx:38-56 | On a fresh install, bob with "Passw0rd!" registers and the store holds just that record |
| `AuthFlow.BobTaken` | src/screens/NonAuth/register.tsx:45-50 | After bob registers, a second bob with another compliant password is refused with "taken" and storage is unchanged |
| `AuthFlow.BobLogsIn` | src/screens/NonAuth/login.tsx:44-67 | With bob stored, a wrong password changes nothing. The right one sets the session to bob's record and mounts Home |
| `AuthFlow.HomeReachable` | src/Main.tsx:20-25 | From a fresh install, registering bob with "Passw0rd!" and then logging in as bob mounts the Home stack |
| `AuthFlow.BobScenario` | src/screens/NonAuth/login.tsx:38-74 | bob/"Passw0rd!" registers. bob/"Anything1!" is taken. A wrong password is refused. The right one logs in and shows Home |

## Left out

- Rendering, styles, icons and `ToastAndroid`: presentation only. Each toast is an outcome constructor.
- `navigation.navigate("Login")` after a registration and the links between the two guest screens: navigation-library behaviour. Only the stack the gate mounts is modelled.
- Formik's display logic (touched fields, one message per field) and Yup's message order: the schema is modelled as the set of rules a form breaks. An empty field reaches the schema as `undefined`, and the model keeps Yup's handling of that.
- Overlapping submissions: two handlers running at once could interleave their storage calls, and a later write could drop an earlier registration. The model assumes each submission completes before the next starts.
- JSON text: a stored payload is a list of records, the empty string, or malformed. Shapes that JavaScript would partly tolerate count as malformed; for example, an array of non-records would not make `find` throw. The app itself only ever writes lists of records.
- Extra fields on stored records: the model stores records as plain username/password pairs.
- Password length is counted in characters, not UTF-16 code units. The two differ only for characters outside the Basic Multilingual Plane.
- Asynchrony of the storage calls: each call is atomic. A `Device` with one flag for reads and one for writes stands for storage failures. Each handler makes at most one read and one write.
- The `passwordStrength` component state: the bar is a function of the current password, which that state tracks.
- The logout handler's `catch` branch: dispatching a plain action cannot throw here.
- redux-persist and `App.tsx`: provider and bootstrap plumbing. `src/redux/store` and `src/redux/actions` are not part of this model; an action of another type is `OtherAction`.

=== FILE: auth_flow.dfy ===
/** The screens wired together: the storage and the reducer state evolve
    through registrations, logins and logouts, and the gate reads the state
    after each step. */
module AuthFlow {
  import opened Optional
  import opened PasswordPolicy
  import opened CredentialStore
  import opened Session
  import opened Navigation
  import Register
  import Login
  import Home

  /** The whole observable state: the storage and the reducer state. */
  datatype App = App(store: Store, state: AppState)

  /** A fresh install: nothing stored, the initial reducer state. */
  const Fresh: App := App(EmptyStore, InitialState)

  /** A user action, with the storage behaviour it met. */
  datatype Event =
    | RegisterPressed(registration: Register.RegisterForm, device: Device)
    | LoginPressed(credentials: Login.LoginForm, device: Device)
    | LogoutPressed

  /** One event applied to the app. */
  function Step(app: App, e: Event): (next: App)
    ensures e.RegisterPressed? ==> next.state == app.state && next.store.credentials == app.store.credentials
    ensures e.LogoutPressed? ==> next.store == app.store && !IsAuthenticated(next.state.user)
    ensures e.LogoutPressed? ==> next.state == Home.Logout(app.state)
    ensures e.LoginPressed? ==> next.store.users == app.store.users
  {
    match e
    case RegisterPressed(form, device) =>
      App(Register.SubmitRegister(form, app.store, device).store, app.state)
    case LoginPressed(form, device) =>
      var r := Login.SubmitLogin(form, app.store, app.state, device);
      App(r.store, r.state)
    case LogoutPressed =>
      App(app.store, Home.Logout(app.state))
  }

  /** A sequence of events applied in order. */
  function Run(app: App, events: seq<Event>): App
    decreases |events|
  {
    if |events| == 0 then app else Run(Step(app, events[0]), events[1..])
  }

  /** Every stored record has a non-empty name and a policy-compliant password,
      and no two share a name. */
  predicate ValidRecords(users: seq<UserRecord>)
  {
    && UniqueUsernames(users)
    && forall i :: 0 <= i < |users| ==> users[i].username != "" && Validation(users[i].password).AllHold()
  }

  /** What every reachable app state satisfies: a stored list is valid, and a
      session user, if any, is one of its records. */
  predicate Invariant(app: App)
  {
    && (app.store.users.Some? && app.store.users.value.Records? ==> ValidRecords(app.store.users.value.users))
    && (app.state.user.Account? ==>
          app.store.users.Some? && app.store.users.value.Records?
          && app.state.user.record in app.store.users.value.users)
  }

  /** A fresh install satisfies the invariant. */
  lemma FreshSatisfiesInvariant()
    ensures Invariant(Fresh)
  {
  }

  /** Each event keeps the invariant. */
  lemma StepKeepsInvariant(app: App, e: Event)
    requires Invariant(app)
    ensures Invariant(Step(app, e))
  {
    match e
    case RegisterPressed(form, device) =>
      var r := Register.SubmitRegister(form, app.store, device);
      if r.outcome == Register.Registered {
        var before := ListOrEmpty(app.store.users).value;
        var rec := UserRecord(form.username, form.password);
        AppendKeepsUnique(before, rec);
        assert r.store.users == Some(Records(before + [rec]));
        forall i | 0 <= i < |before + [rec]|
          ensures (before + [rec])[i].username != "" && Validation((before + [rec])[i].password).AllHold()
        {
          if i < |before| {
            assert (before + [rec])[i] == before[i];
          }
        }
        if app.state.user.Account? {
          assert app.state.user.record in before + [rec];
        }
      }
    case LoginPressed(form, device) =>
    case LogoutPressed =>
  }

  /** The invariant holds after any sequence of events from a state that had it. */
  lemma {:induction false} RunKeepsInvariant(app: App, events: seq<Event>)
    requires Invariant(app)
    ensures Invariant(Run(app, events))
    decreases |events|
  {
    if |events| > 0 {
      StepKeepsInvariant(app, events[0]);
      RunKeepsInvariant(Step(app, events[0]), events[1..]);
    }
  }

  /** From a fresh install, whenever the gate shows Home the session belongs to
      a stored user whose password meets the policy. */
  lemma HomeOnlyForRegisteredUsers(events: seq<Event>)
    ensures var app := Run(Fresh, events);
            HomeScreen in Gate(app.state).screens ==>
              app.store.users.Some? && app.store.users.value.Records?
              && app.state.user.Account? && app.state.user.record in app.store.users.value.users
              && Validation(app.state.user.record.password).AllHold()
  {
    FreshSatisfiesInvariant();
    RunKeepsInvariant(Fresh, events);
    var app := Run(Fresh, events);
    if app.state.user.Account? {
      var users := app.store.users.value.users;
      var i :| 0 <= i < |users| && users[i] == app.state.user.record;
    }
  }

  /** A registration followed by a login with the same name and password
      succeeds and authenticates as the new record. */
  lemma RegisterThenLogin(app: App, form: Register.RegisterForm, remember: bool, device: Device)
    requires device.readable && device.writable
    requires Register.SubmitRegister(form, app.store, device).outcome == Register.Registered
    ensures var next := Step(app, RegisterPressed(form, device));
            var r := Login.SubmitLogin(Login.LoginForm(form.username, form.password, remember), next.store, next.state, device);
            r.outcome == Login.LoggedIn && r.state.user == Account(UserRecord(form.username, form.password))
            && IsAuthenticated(r.state.user)
  {
    var before := ListOrEmpty(app.store.users).value;
    FindAppended(before, UserRecord(form.username, form.password));
  }

  /** The storage after bob's registration on a fresh install. */
  const BobStore: Store := Store(Some(Records([UserRecord("bob", "Passw0rd!")])), None)

  /** Both of bob's chosen passwords meet the whole policy. */
  lemma BobPasswordsCompliant()
    ensures Validation("Passw0rd!").AllHold()
    ensures Validation("Anything1!").AllHold()
  {
    var p := "Passw0rd!";
    assert InClass(p[0], Upper) && InClass(p[1], Lower) && InClass(p[5], Digit) && InClass(p[8], Special);
    var q := "Anything1!";
    assert InClass(q[0], Upper) && InClass(q[1], Lower) && InClass(q[8], Digit) && InClass(q[9], Special);
  }

  /** bob registers with "Passw0rd!" on a fresh install. */
  lemma BobRegisters()
    ensures Register.SubmitRegister(Register.RegisterForm("bob", "Passw0rd!", "Passw0rd!"), EmptyStore, Device(true, true))
            == Register.RegisterResult(Register.Registered, BobStore)
  {
    BobPasswordsCompliant();
    Register.FirstRegistration("bob", "Passw0rd!", None);
  }

  /** A second bob, whatever the password, is refused and nothing is written. */
  lemma BobTaken()
    ensures Register.SubmitRegister(Register.RegisterForm("bob", "Anything1!", "Anything1!"), BobStore, Device(true, true))
            == Register.RegisterResult(Register.UsernameTaken, BobStore)
  {
    BobPasswordsCompliant();
    Register.DuplicateRefused([UserRecord("bob", "Passw0rd!")], 0, "Anything1!", None, Device(true, true));
  }

  /** bob with a wrong password is refused and nothing changes; with the right
      one the session becomes bob and Home is shown. */
  lemma BobLogsIn(state: AppState)
    ensures Login.SubmitLogin(Login.LoginForm("bob", "wrong", false), BobStore, state, Device(true, true))
            == Login.LoginResult(Login.WrongPassword, BobStore, state)
    ensures var r := Login.SubmitLogin(Login.LoginForm("bob", "Passw0rd!", false), BobStore, state, Device(true, true));
            r.outcome == Login.LoggedIn && r.store == BobStore
            && r.state.user == Account(UserRecord("bob", "Passw0rd!")) && Gate(r.state) == AuthStack
  {
    FindUnique([UserRecord("bob", "Passw0rd!")], 0);
  }

  /** Register bob with "Passw0rd!", try bob again with "Anything1!", log in
      with a wrong password, then with the right one. */
  lemma BobScenario()
    ensures var ok := Device(true, true);
            var r1 := Register.SubmitRegister(Register.RegisterForm("bob", "Passw0rd!", "Passw0rd!"), EmptyStore, ok);
            var r2 := Register.SubmitRegister(Register.RegisterForm("bob", "Anything1!", "Anything1!"), r1.store, ok);
            var l1 := Login.SubmitLogin(Login.LoginForm("bob", "wrong", false), r2.store, InitialState, ok);
            var l2 := Login.SubmitLogin(Login.LoginForm("bob", "Passw0rd!", false), l1.store, l1.state, ok);
            && r1.outcome == Register.Registered
            && r2.outcome == Register.UsernameTaken
            && l1.outcome == Login.WrongPassword
            && l2.outcome == Login.LoggedIn
            && l2.state.user == Account(UserRecord("bob", "Passw0rd!"))
            && Gate(l2.state) == AuthStack
  {
    BobRegisters();
    BobTaken();
    BobLogsIn(InitialState);
  }

  /** Running two events is stepping twice. */
  lemma RunTwo(app: App, e1: Event, e2: Event)
    ensures Run(app, [e1, e2]) == Step(Step(app, e1), e2)
  {
    var a1 := Step(app, e1);
    var a2 := Step(a1, e2);
    assert [e1, e2][1..] == [e2];
    assert Run(app, [e1, e2]) == Run(a1, [e2]);
    assert [e2][1..] == [];
    assert Run(a1, [e2]) == Run(a2, []);
  }

  /** bob signs up with "Passw0rd!" on working storage. */
  const BobSignsUp: Event := RegisterPressed(Register.RegisterForm("bob", "Passw0rd!", "Passw0rd!"), Device(true, true))

  /** bob signs in with "Passw0rd!", Remember Me off, on working storage. */
  const BobSignsIn: Event := LoginPressed(Login.LoginForm("bob", "Passw0rd!", false), Device(true, true))

  /** Home is reachable through the event machine: from a fresh install,
      registering bob and then logging in as bob mounts the Home stack. */
  lemma HomeReachable()
    ensures Gate(Run(Fresh, [BobSignsUp, BobSignsIn]).state) == AuthStack
  {
    RunTwo(Fresh, BobSignsUp, BobSignsIn);
    BobRegisters();
    assert Step(Fresh, BobSignsUp) == App(BobStore, InitialState);
    BobLogsIn(InitialState);
  }
}

=== FILE: credential_store.dfy ===
/** The device-local key-value storage both authentication screens use, seen
    as two keys read and written atomically: `users` holds the registered
    records and `credentials` the remembered login. */
module CredentialStore {
  import opened Optional

  /** A registered user, stored with its password in plain text. */
  datatype UserRecord = UserRecord(username: string, password: string)

  /** What `JSON.parse` makes of the text stored under `users`: a list of
      records, the empty string, or text that does not parse to a list of
      records (parsing it, or calling `find` on the result, throws). */
  datatype UsersPayload = Records(users: seq<UserRecord>) | EmptyText | Malformed

  /** What is stored under `credentials`: a username/password pair (a field
      missing from the object reads as the empty string), or text that does
      not parse to an object. */
  datatype CredentialsPayload = Pair(username: string, password: string) | Unreadable

  /** The two storage keys; `None` is a key that is absent. */
  datatype Store = Store(users: Option<UsersPayload>, credentials: Option<CredentialsPayload>)

  /** A store on a fresh install: neither key has been written. */
  const EmptyStore: Store := Store(None, None)

  /** Whether the storage medium currently serves reads and accepts writes;
      a failing call rejects its promise and stores nothing. */
  datatype Device = Device(readable: bool, writable: bool)

  /** `JSON.parse(data || '[]')` as registration reads the list: an absent key
      and an empty string both count as the empty list; malformed text throws. */
  function ListOrEmpty(payload: Option<UsersPayload>): (r: Option<seq<UserRecord>>)
    ensures r.None? <==> payload == Some(Malformed)
    ensures payload.None? ==> r == Some([])
    ensures payload == Some(EmptyText) ==> r == Some([])
    ensures payload.Some? && payload.value.Records? ==> r == Some(payload.value.users)
  {
    match payload
    case None => Some([])
    case Some(Records(users)) => Some(users)
    case Some(EmptyText) => Some([])
    case Some(Malformed) => None
  }

  /** `JSON.parse(data)` followed by `find`, as login reads the list: an absent
      key parses to `null` and an empty string does not parse, so only a stored
      list of records yields a list. */
  function ListStrict(payload: Option<UsersPayload>): (r: Option<seq<UserRecord>>)
    ensures r.Some? <==> payload.Some? && payload.value.Records?
    ensures r.Some? ==> ListOrEmpty(payload) == r
  {
    match payload
    case Some(Records(users)) => Some(users)
    case _ => None
  }

  /** Position at which `users.find(x => x.username === name)` stops: the first
      record whose username equals `name` exactly, case included. */
  function FirstMatch(users: seq<UserRecord>, name: string): (r: Option<nat>)
    ensures r.Some? ==> r.value < |users| && users[r.value].username == name
    ensures r.Some? ==> forall j :: 0 <= j < r.value ==> users[j].username != name
    ensures r.None? <==> forall j :: 0 <= j < |users| ==> users[j].username != name
  {
    if |users| == 0 then None
    else if users[0].username == name then Some(0)
    else match FirstMatch(users[1..], name)
      case None => None
      case Some(k) => Some(k + 1)
  }

  /** `users.find(x => x.username === name)`: the first matching record. */
  function Find(users: seq<UserRecord>, name: string): (r: Option<UserRecord>)
    ensures r.Some? ==> r.value in users && r.value.username == name
    ensures r.Some? ==> exists k :: 0 <= k < |users| && users[k] == r.value
                          && forall j :: 0 <= j < k ==> users[j].username != name
    ensures r.None? <==> forall u :: u in users ==> u.username != name
  {
    match FirstMatch(users, name)
    case None => None
    case Some(k) => Some(users[k])
  }

  /** No two stored records share a username. */
  predicate UniqueUsernames(users: seq<UserRecord>)
  {
    forall i, j :: 0 <= i < j < |users| ==> users[i].username != users[j].username
  }

  /** When usernames are unique, `find` returns the one record with that name,
      wherever it sits in the list. */
  lemma FindUnique(users: seq<UserRecord>, i: nat)
    requires UniqueUsernames(users)
    requires i < |users|
    ensures Find(users, users[i].username) == Some(users[i])
  {
    var k := FirstMatch(users, users[i].username);
    assert k.Some?;
  }

  /** Appending a record whose name is not yet taken keeps usernames unique. */
  lemma AppendKeepsUnique(users: seq<UserRecord>, r: UserRecord)
    requires UniqueUsernames(users)
    requires Find(users, r.username).None?
    ensures UniqueUsernames(users + [r])
  {
    var all := users + [r];
    forall i, j | 0 <= i < j < |all|
      ensures all[i].username != all[j].username
    {
      if j == |users| {
        assert all[i] in users;
      }
    }
  }

  /** After appending a record whose name was not taken, `find` on that name
      returns the appended record. */
  lemma FindAppended(users: seq<UserRecord>, r: UserRecord)
    requires Find(users, r.username).None?
    ensures Find(users + [r], r.username) == Some(r)
  {
    var all := users + [r];
    var k := FirstMatch(all, r.username);
    assert all[|users|] == r;
    assert k.Some?;
  }

  /** Appending never changes what `find` returns for a name already present. */
  lemma FindAppendedOther(users: seq<UserRecord>, r: UserRecord, name: string)
    requires Find(users, name).Some?
    ensures Find(users + [r], name) == Find(users, name)
  {
    var all := users + [r];
    var k := FirstMatch(users, name).value;
    var k' := FirstMatch(all, name);
    assert all[k] == users[k];
    assert k'.Some?;
  }
}

=== FILE: home.dfy ===
/** The authenticated Home screen: its greeting and its logout button. */
module Home {
  import opened Optional
  import opened Session
  import opened Navigation

  /** `handleLogout`: dispatch `SET_USER` with a `null` user. Storage is not an
      input, so neither storage key can change. */
  function Logout(state: AppState): (r: AppState)
    ensures r.user == NullUser
    ensures r.others == state.others
    ensures Gate(r) == GuestStack
  {
    Reduce(Some(state), SetUser(NullUser))
  }

  /** Logging out of an already logged-out session changes nothing. */
  lemma LogoutIdempotent(state: AppState)
    ensures Logout(Logout(state)) == Logout(state)
    ensures state.user == NullUser ==> Logout(state) == state
  {
  }

  /** The name in "Welcome, ...": the session's username when it is truthy,
      otherwise "Guest". */
  function Greeting(u: User): (name: string)
    ensures name != ""
    ensures IsAuthenticated(u) ==> Some(name) == Username(u)
    ensures !IsAuthenticated(u) ==> name == "Guest"
  {
    match Username(u)
    case Some(n) => if n != "" then n else "Guest"
    case None => "Guest"
  }
}

=== FILE: login.dfy ===
/** The login screen: the pre-fill from remembered credentials, the
    required-field check, and the submit handler that looks the user up,
    updates the remembered credentials and starts the session. */
module Login {
  import opened Optional
  import opened CredentialStore
  import opened Session

  /** The two form fields and the separate Remember Me checkbox. */
  datatype LoginForm = LoginForm(username: string, password: string, rememberMe: bool)

  /** The screen's starting values: empty fields, checkbox off. */
  const DefaultForm: LoginForm := LoginForm("", "", false)

  /** `loadSavedCredentials`: when `credentials` holds a pair with both fields
      non-empty, the form starts filled with it and the checkbox on; an absent
      key, an unreadable payload, a failed read or an empty field keeps the
      defaults. */
  function PreFill(store: Store, device: Device): (f: LoginForm)
    ensures f.rememberMe <==> f != DefaultForm
    ensures f.rememberMe <==>
              device.readable && store.credentials.Some? && store.credentials.value.Pair?
              && store.credentials.value.username != "" && store.credentials.value.password != ""
    ensures f.rememberMe ==> store.credentials == Some(Pair(f.username, f.password))
  {
    if !device.readable then DefaultForm
    else match store.credentials
      case Some(Pair(username, password)) =>
        if username != "" && password != "" then LoginForm(username, password, true) else DefaultForm
      case _ => DefaultForm
  }

  /** A required field the form leaves empty. */
  datatype FieldError = UsernameRequired | PasswordRequired

  /** The form's `validate`: each empty field is reported. */
  function FieldErrors(f: LoginForm): (errs: set<FieldError>)
    ensures errs == {} <==> f.username != "" && f.password != ""
    ensures UsernameRequired in errs <==> f.username == ""
    ensures PasswordRequired in errs <==> f.password == ""
  {
    (if f.username == "" then {UsernameRequired} else {})
    + (if f.password == "" then {PasswordRequired} else {})
  }

  /** The toast a submission ends with, or the field errors that stopped it. */
  datatype LoginOutcome =
    | Invalid(errors: set<FieldError>)
    | LoggedIn
    | InvalidUsername
    | WrongPassword
    | SomethingWentWrong

  /** Everything a submission can change: the storage and the reducer state. */
  datatype LoginResult = LoginResult(outcome: LoginOutcome, store: Store, state: AppState)

  /** `handleLogin`: read and parse the stored list, find the first record with
      the entered name, compare passwords exactly, then write or remove the
      remembered credentials and only after that dispatch `SET_USER` with the
      record found. Any thrown error, including the one an absent `users` key
      causes, ends in the generic error with nothing changed. */
  function HandleLogin(f: LoginForm, store: Store, state: AppState, device: Device): (r: LoginResult)
    ensures !r.outcome.Invalid?
    ensures r.store.users == store.users
    ensures r.outcome != LoggedIn ==> r.store == store && r.state == state
    ensures store.users.None? ==> r.outcome == SomethingWentWrong
    ensures r.outcome == InvalidUsername <==>
              device.readable && ListStrict(store.users).Some?
              && forall u :: u in ListStrict(store.users).value ==> u.username != f.username
    ensures r.outcome == WrongPassword <==>
              device.readable && ListStrict(store.users).Some?
              && Find(ListStrict(store.users).value, f.username).Some?
              && Find(ListStrict(store.users).value, f.username).value.password != f.password
    ensures r.outcome == LoggedIn <==>
              device.readable && device.writable && ListStrict(store.users).Some?
              && Find(ListStrict(store.users).value, f.username).Some?
              && Find(ListStrict(store.users).value, f.username).value.password == f.password
    ensures r.outcome == LoggedIn ==>
              device.readable && device.writable && ListStrict(store.users).Some?
              && UserRecord(f.username, f.password) in ListStrict(store.users).value
              && r.state == state.(user := Account(UserRecord(f.username, f.password)))
              && r.store.credentials == (if f.rememberMe then Some(Pair(f.username, f.password)) else None)
  {
    if !device.readable then LoginResult(SomethingWentWrong, store, state)
    else match ListStrict(store.users)
      case None => LoginResult(SomethingWentWrong, store, state)
      case Some(users) =>
        match Find(users, f.username)
        case None => LoginResult(InvalidUsername, store, state)
        case Some(record) =>
          if record.password != f.password then LoginResult(WrongPassword, store, state)
          else if !device.writable then LoginResult(SomethingWentWrong, store, state)
          else
            var remembered := if f.rememberMe then Some(Pair(f.username, f.password)) else None;
            LoginResult(LoggedIn, store.(credentials := remembered), Reduce(Some(state), SetUser(Account(record))))
  }

  /** Pressing Login: the required-field check runs first and the handler only
      on a complete form. */
  function SubmitLogin(f: LoginForm, store: Store, state: AppState, device: Device): (r: LoginResult)
    ensures r.outcome.Invalid? <==> FieldErrors(f) != {}
    ensures r.outcome.Invalid? ==> r.outcome.errors == FieldErrors(f) && r.store == store && r.state == state
    ensures r.outcome == LoggedIn ==> f.username != "" && f.password != ""
    ensures FieldErrors(f) == {} ==> r == HandleLogin(f, store, state, device)
  {
    var errors := FieldErrors(f);
    if errors != {} then LoginResult(Invalid(errors), store, state)
    else HandleLogin(f, store, state, device)
  }

  /** Remember-me round trip: after a successful submission with the box
      ticked the next login screen starts filled with the same name and
      password; with the box clear it starts from the defaults. */
  lemma RememberedCredentialsPreFill(f: LoginForm, store: Store, state: AppState, device: Device, later: Device)
    requires SubmitLogin(f, store, state, device).outcome == LoggedIn
    requires later.readable
    ensures PreFill(SubmitLogin(f, store, state, device).store, later) == (if f.rememberMe then f else DefaultForm)
  {
  }

  /** With unique usernames, every stored user logs in with their own password,
      and every other password for that name is refused as wrong. */
  lemma StoredUsersAuthenticate(users: seq<UserRecord>, i: nat, password: string, remember: bool,
                                credentials: Option<CredentialsPayload>, state: AppState, device: Device)
    requires UniqueUsernames(users)
    requires i < |users|
    requires device.readable && device.writable
    ensures var r := HandleLogin(LoginForm(users[i].username, password, remember), Store(Some(Records(users)), credentials), state, device);
            (password == users[i].password ==> r.outcome == LoggedIn && r.state.user == Account(users[i]))
            && (password != users[i].password ==> r.outcome == WrongPassword)
  {
    FindUnique(users, i);
  }
}

=== FILE: navigation.dfy ===
/** The navigation gate of the root component: which stack of screens is
    mounted, decided afresh from the session user on every render. */
module Navigation {
  import opened Optional
  import opened CredentialStore
  import opened Session

  datatype Screen = LoginScreen | RegisterScreen | HomeScreen

  /** A mounted stack navigator: its screens in declaration order and the route
      it opens on (the first screen unless `initialRouteName` says otherwise). */
  datatype Stack = Stack(screens: seq<Screen>, initialRoute: Screen)

  /** `session?.username` is truthy: the user carries a non-empty username. */
  predicate IsAuthenticated(u: User)
  {
    var name := Username(u);
    name.Some? && name.value != ""
  }

  /** The stack for the authenticated user. */
  const AuthStack: Stack := Stack([HomeScreen], HomeScreen)

  /** The stack for everyone else, opening on Login. */
  const GuestStack: Stack := Stack([LoginScreen, RegisterScreen], LoginScreen)

  /** The gate: Home is reachable iff the session user has a truthy username,
      Login and Register iff it has not, and the two sets never mix. */
  function Gate(state: AppState): (nav: Stack)
    ensures nav.initialRoute in nav.screens
    ensures HomeScreen in nav.screens <==> IsAuthenticated(state.user)
    ensures LoginScreen in nav.screens <==> !IsAuthenticated(state.user)
    ensures RegisterScreen in nav.screens <==> !IsAuthenticated(state.user)
    ensures !IsAuthenticated(state.user) ==> nav.initialRoute == LoginScreen
  {
    if IsAuthenticated(state.user) then AuthStack else GuestStack
  }

  /** The initial state `{ user: {} }` shows the guest screens. */
  lemma InitialStateIsGuest()
    ensures Gate(InitialState) == GuestStack
  {
  }

  /** A `null` user shows the guest screens. */
  lemma NullUserIsGuest(others: map<string, string>)
    ensures Gate(AppState(NullUser, others)) == GuestStack
  {
  }

  /** A record with an empty username shows the guest screens. */
  lemma EmptyUsernameIsGuest(password: string, others: map<string, string>)
    ensures Gate(AppState(Account(UserRecord("", password)), others)) == GuestStack
  {
  }
}

=== FILE: optional.dfy ===
/** The optional value used throughout the model: JavaScript's `null` and
    `undefined` results (a storage key that was never written, a `find` that
    matched nothing) become `None`. */
module Optional {

  datatype Option<+T> = None | Some(value: T) {

    /** The carried value, or `default` when there is none. */
    function GetOr(default: T): T
    {
      match this
      case Some(v) => v
      case None => default
    }
  }
}

=== FILE: password_policy.dfy ===
/** The password rules of the registration screen: the five-condition report
    shown as a checklist, the four-condition strength score behind the
    strength bar, and the colour band of that bar. */
module PasswordPolicy {
  import opened Optional

  /** The minimum length demanded by the checklist, the schema and the score. */
  const MinLength: nat := 8

  /** The members of the character class `[!@#$%^&*]`. */
  const SpecialChars: string := "!@#$%^&*"

  /** The character classes the policy's regular expressions test for. */
  datatype CharClass = Upper | Lower | Digit | Special

  /** Membership of one character in a class: `[A-Z]`, `[a-z]` and `[0-9]`
      are ASCII ranges, `[!@#$%^&*]` is the eight listed characters. */
  predicate InClass(c: char, k: CharClass)
  {
    match k
    case Upper => 'A' <= c <= 'Z'
    case Lower => 'a' <= c <= 'z'
    case Digit => '0' <= c <= '9'
    case Special => c in SpecialChars
  }

  /** `/[...]/.test(p)`: some character of `p` belongs to class `k`. */
  predicate Contains(p: string, k: CharClass)
  {
    exists i :: 0 <= i < |p| && InClass(p[i], k)
  }

  /** The object returned by `passwordValidation`: five independent flags. */
  datatype Report = Report(
    minLength: bool,
    hasUppercase: bool,
    hasLowercase: bool,
    hasNumber: bool,
    hasSpecialChar: bool)
  {
    /** Every condition holds: the password satisfies the registration policy. */
    predicate AllHold()
    {
      minLength && hasUppercase && hasLowercase && hasNumber && hasSpecialChar
    }
  }

  /** `passwordValidation`: the checklist of the five policy conditions. */
  function Validation(p: string): (r: Report)
    ensures r.hasUppercase || r.hasLowercase || r.hasNumber || r.hasSpecialChar || r.minLength ==> p != ""
    ensures r.AllHold() ==> |p| >= MinLength
    ensures p == "" ==> r == Report(false, false, false, false, false)
  {
    Report(
      |p| >= MinLength,
      Contains(p, Upper),
      Contains(p, Lower),
      Contains(p, Digit),
      Contains(p, Special))
  }

  /** 1 for a satisfied condition, 0 otherwise. */
  function Point(b: bool): nat
  {
    if b then 1 else 0
  }

  /** The four conditions the strength score counts; lowercase is not one. */
  datatype ScoredCondition = LongEnough | HasUpper | HasDigit | HasSpecial

  const ScoredConditions: set<ScoredCondition> := {LongEnough, HasUpper, HasDigit, HasSpecial}

  /** Whether `p` satisfies one scored condition. */
  predicate Meets(p: string, c: ScoredCondition)
  {
    match c
    case LongEnough => |p| >= MinLength
    case HasUpper => Contains(p, Upper)
    case HasDigit => Contains(p, Digit)
    case HasSpecial => Contains(p, Special)
  }

  /** `c` as a one-element set when `b` holds, the empty set otherwise. */
  function OnlyIf(b: bool, c: ScoredCondition): (r: set<ScoredCondition>)
    ensures |r| == Point(b)
    ensures r == {} <==> !b
  {
    if b then {c} else {}
  }

  /** The scored conditions `p` satisfies. */
  function Met(p: string): (met: set<ScoredCondition>)
    ensures met <= ScoredConditions
  {
    OnlyIf(|p| >= MinLength, LongEnough) + OnlyIf(Contains(p, Upper), HasUpper)
    + OnlyIf(Contains(p, Digit), HasDigit) + OnlyIf(Contains(p, Special), HasSpecial)
  }

  /** `calculatePasswordStrength`: a quarter of the percentage for each of
      length, uppercase, digit and special character. The source divides the
      count by four and multiplies by a hundred; for a count of 0..4 that is
      exactly 25 times the count, so no rounding arises. Lowercase letters
      are not one of the scored conditions. */
  function Strength(p: string): (s: nat)
    ensures s == 25 * |Met(p)|
    ensures s % 25 == 0 && s <= 100
    ensures s == 100 <==> |p| >= MinLength && Contains(p, Upper) && Contains(p, Digit) && Contains(p, Special)
    ensures s == 0 <==> |p| < MinLength && !Contains(p, Upper) && !Contains(p, Digit) && !Contains(p, Special)
  {
    var long, upper, digit, special := |p| >= MinLength, Contains(p, Upper), Contains(p, Digit), Contains(p, Special);
    MetCount(p);
    PointSum(long, upper, digit, special);
    25 * (Point(long) + Point(upper) + Point(digit) + Point(special))
  }

  /** Four points sum to at most 4, to 4 iff all are earned, to 0 iff none is. */
  lemma PointSum(a: bool, b: bool, c: bool, d: bool)
    ensures Point(a) + Point(b) + Point(c) + Point(d) <= 4
    ensures Point(a) + Point(b) + Point(c) + Point(d) == 4 <==> a && b && c && d
    ensures Point(a) + Point(b) + Point(c) + Point(d) == 0 <==> !a && !b && !c && !d
  {
  }

  /** A condition is in `Met(p)` exactly when `p` satisfies it. */
  lemma MetMembers(p: string, c: ScoredCondition)
    ensures c in Met(p) <==> Meets(p, c)
  {
    match c
    case LongEnough =>
    case HasUpper =>
    case HasDigit =>
    case HasSpecial =>
  }

  /** The number of satisfied scored conditions is the sum of their points. */
  lemma MetCount(p: string)
    ensures |Met(p)| == Point(|p| >= MinLength) + Point(Contains(p, Upper)) + Point(Contains(p, Digit)) + Point(Contains(p, Special))
  {
    var a, b, c, d := OnlyIf(|p| >= MinLength, LongEnough), OnlyIf(Contains(p, Upper), HasUpper),
                      OnlyIf(Contains(p, Digit), HasDigit), OnlyIf(Contains(p, Special), HasSpecial);
    assert |a + b| == |a| + |b|;
    assert |a + b + c| == |a + b| + |c|;
    assert |a + b + c + d| == |a + b + c| + |d|;
  }

  /** The colour of the strength bar. */
  datatype Band = Weak | Medium | Strong

  /** The three style flags the bar applies, each computed on its own from
      the score (`strong`, `medium`, `weak`). */
  datatype BarStyle = BarStyle(strong: bool, medium: bool, weak: bool)

  function StyleFlags(score: int): BarStyle
  {
    BarStyle(score >= 75, score >= 50 && score < 75, score < 50)
  }

  /** The band a score falls in; exactly one style flag is set, and it is the
      one of this band. */
  function BandOf(score: int): (b: Band)
    ensures b == Strong <==> StyleFlags(score).strong
    ensures b == Medium <==> StyleFlags(score).medium
    ensures b == Weak <==> StyleFlags(score).weak
  {
    if score >= 75 then Strong
    else if score >= 50 then Medium
    else Weak
  }

  /** The strength bar under the password field: absent while the field is
      empty, otherwise the band of the password's score. */
  function StrengthBar(p: string): (bar: Option<Band>)
    ensures bar.None? <==> p == ""
    ensures bar == Some(Strong) <==> p != "" && |Met(p)| >= 3
    ensures bar == Some(Medium) <==> p != "" && |Met(p)| == 2
    ensures bar == Some(Weak) <==> p != "" && |Met(p)| <= 1
  {
    if |p| > 0 then Some(BandOf(Strength(p))) else None
  }

  /** The band of a password's score: strong with at least three of the four
      scored conditions, medium with exactly two, weak with at most one. */
  lemma BandOfStrength(p: string)
    ensures BandOf(Strength(p)) == Strong <==> |Met(p)| >= 3
    ensures BandOf(Strength(p)) == Medium <==> |Met(p)| == 2
    ensures BandOf(Strength(p)) == Weak <==> |Met(p)| <= 1
  {
  }

  /** The style flags are mutually exclusive and together exhaustive. */
  lemma ExactlyOneStyle(score: int)
    ensures StyleFlags(score).strong || StyleFlags(score).medium || StyleFlags(score).weak
    ensures !(StyleFlags(score).strong && StyleFlags(score).medium)
    ensures !(StyleFlags(score).strong && StyleFlags(score).weak)
    ensures !(StyleFlags(score).medium && StyleFlags(score).weak)
  {
  }

  /** A character that none of the scored classes contains. */
  predicate Unscored(c: char)
  {
    !InClass(c, Upper) && !InClass(c, Digit) && !InClass(c, Special)
  }

  /** Lowercase letters do not move the score: exchanging characters that no
      scored class contains (every lowercase letter is one) for others of the
      same kind, position by position, leaves the strength unchanged. */
  lemma StrengthIgnoresLowercase(p: string, q: string)
    requires |p| == |q|
    requires forall i :: 0 <= i < |p| ==> p[i] == q[i] || (Unscored(p[i]) && Unscored(q[i]))
    ensures Strength(p) == Strength(q)
  {
    forall k | k != Lower
      ensures Contains(p, k) <==> Contains(q, k)
    {
      if Contains(p, k) {
        ScoredClassCarries(p, q, k);
      }
      if Contains(q, k) {
        ScoredClassCarries(q, p, k);
      }
    }
    MetCount(p);
    MetCount(q);
  }

  /** One direction of `StrengthIgnoresLowercase` for one scored class: a
      character of that class in `p` sits unchanged in `q`. */
  lemma ScoredClassCarries(p: string, q: string, k: CharClass)
    requires k != Lower
    requires |p| == |q|
    requires forall i :: 0 <= i < |p| ==> p[i] == q[i] || (Unscored(p[i]) && Unscored(q[i]))
    requires Contains(p, k)
    ensures Contains(q, k)
  {
    var i :| 0 <= i < |p| && InClass(p[i], k);
    assert p[i] == q[i];
    assert InClass(q[i], k);
  }

  /** Every lowercase letter is outside the scored classes. */
  lemma LowercaseIsUnscored(c: char)
    requires InClass(c, Lower)
    ensures Unscored(c)
  {
  }

  /** A password meeting the whole policy has full strength. */
  lemma CompliantIsFullStrength(p: string)
    requires Validation(p).AllHold()
    ensures Strength(p) == 100
  {
  }

  /** The converse fails: the score omits the lowercase condition, so a
      password can show full strength and still be refused by the policy. */
  lemma FullStrengthNotCompliant()
    ensures Strength("ABCDEF1!") == 100
    ensures !Validation("ABCDEF1!").AllHold()
  {
    var p := "ABCDEF1!";
    assert InClass(p[0], Upper);
    assert InClass(p[6], Digit);
    assert InClass(p[7], Special);
    assert forall i :: 0 <= i < |p| ==> !InClass(p[i], Lower);
  }

  /** The checklist of "Abcdef1!" is all green. */
  lemma AllConditionsExample()
    ensures Validation("Abcdef1!") == Report(true, true, true, true, true)
  {
    var p := "Abcdef1!";
    assert InClass(p[0], Upper);
    assert InClass(p[1], Lower);
    assert InClass(p[6], Digit);
    assert InClass(p[7], Special);
  }

  /** The checklist of "abcdefgh" shows only length and lowercase. */
  lemma LowercaseOnlyExample()
    ensures Validation("abcdefgh") == Report(true, false, true, false, false)
  {
    var p := "abcdefgh";
    assert InClass(p[0], Lower);
    assert forall i :: 0 <= i < |p| ==> !InClass(p[i], Upper) && !InClass(p[i], Digit) && !InClass(p[i], Special);
  }

  /** A class occurs in a concatenation iff it occurs in one of the parts. */
  lemma ContainsConcat(a: string, b: string, k: CharClass)
    ensures Contains(a + b, k) <==> Contains(a, k) || Contains(b, k)
  {
    if Contains(a + b, k) {
      var i :| 0 <= i < |a + b| && InClass((a + b)[i], k);
      if i < |a| {
        assert InClass(a[i], k);
      } else {
        assert InClass(b[i - |a|], k);
      }
    }
    if Contains(a, k) {
      var i :| 0 <= i < |a| && InClass(a[i], k);
      assert InClass((a + b)[i], k);
    }
    if Contains(b, k) {
      var i :| 0 <= i < |b| && InClass(b[i], k);
      assert InClass((a + b)[|a| + i], k);
    }
  }

  /** `c` when `b` holds, the empty string otherwise. */
  function Optionally(b: bool, c: string): string
  {
    if b then c else ""
  }

  /** A password whose checklist is exactly `r`: the five conditions are
      independent, since every combination of them is met by some password. */
  function Exhibit(r: Report): (p: string)
    ensures Validation(p) == r
  {
    var core := Optionally(r.hasUppercase, "A") + Optionally(r.hasLowercase, "a")
                + Optionally(r.hasNumber, "1") + Optionally(r.hasSpecialChar, "!");
    var pad := Optionally(r.minLength, "        ");
    ExhibitClasses(r, core, pad);
    core + pad
  }

  /** The class facts `Exhibit` relies on, one part at a time. */
  lemma ExhibitClasses(r: Report, core: string, pad: string)
    requires core == Optionally(r.hasUppercase, "A") + Optionally(r.hasLowercase, "a")
                     + Optionally(r.hasNumber, "1") + Optionally(r.hasSpecialChar, "!")
    requires pad == Optionally(r.minLength, "        ")
    ensures Validation(core + pad) == r
  {
    var u, l, d, s := Optionally(r.hasUppercase, "A"), Optionally(r.hasLowercase, "a"),
                      Optionally(r.hasNumber, "1"), Optionally(r.hasSpecialChar, "!");
    assert |core| <= 4;
    forall k: CharClass
      ensures Contains(core + pad, k) <==> Contains(u, k) || Contains(l, k) || Contains(d, k) || Contains(s, k)
    {
      ContainsConcat(core, pad, k);
      ContainsConcat(u + l + d, s, k);
      ContainsConcat(u + l, d, k);
      ContainsConcat(u, l, k);
      BlanksContainNothing(pad, k);
    }
    forall k: CharClass
      ensures Contains(u, k) <==> r.hasUppercase && k == Upper
      ensures Contains(l, k) <==> r.hasLowercase && k == Lower
      ensures Contains(d, k) <==> r.hasNumber && k == Digit
      ensures Contains(s, k) <==> r.hasSpecialChar && k == Special
    {
      ContainsSingle(r.hasUppercase, 'A', k);
      ContainsSingle(r.hasLowercase, 'a', k);
      ContainsSingle(r.hasNumber, '1', k);
      ContainsSingle(r.hasSpecialChar, '!', k);
    }
  }

  /** A string of at most one character contains a class iff that character is in it. */
  lemma ContainsSingle(b: bool, c: char, k: CharClass)
    ensures Contains(Optionally(b, [c]), k) <==> b && InClass(c, k)
  {
    if b {
      assert [c][0] == c;
    }
  }

  /** A string of spaces contains no character of any class. */
  lemma BlanksContainNothing(pad: string, k: CharClass)
    requires forall i :: 0 <= i < |pad| ==> pad[i] == ' '
    ensures !Contains(pad, k)
  {
  }
}

=== FILE: register.dfy ===
/** The registration screen: its form schema and its submit handler, which
    appends the new user to the stored list unless the name is taken. */
module Register {
  import opened Optional
  import opened PasswordPolicy
  import opened CredentialStore

  /** The three fields of the registration form. */
  datatype RegisterForm = RegisterForm(username: string, password: string, confirmPassword: string)

  /** One rule of the form's validation schema that the input breaks. */
  datatype SchemaError =
    | UsernameRequired
    | PasswordRequired
    | TooShort
    | MissingUppercase
    | MissingLowercase
    | MissingNumber
    | MissingSpecialChar
    | PasswordsMustMatch
    | ConfirmRequired

  /** Every rule of the validation schema the form breaks; the form is
      submitted only when there is none. The form library hands an empty
      field to the schema as `undefined`, which fails `required` but which
      the length, pattern and `oneOf` rules let through, so an empty field
      reports only that it is required. */
  function SchemaErrors(f: RegisterForm): (errs: set<SchemaError>)
    ensures errs == {} <==> f.username != "" && Validation(f.password).AllHold() && f.confirmPassword == f.password
    ensures UsernameRequired in errs <==> f.username == ""
    ensures PasswordRequired in errs <==> f.password == ""
    ensures ConfirmRequired in errs <==> f.confirmPassword == ""
    ensures PasswordsMustMatch in errs <==> f.confirmPassword != "" && f.confirmPassword != f.password
    ensures TooShort in errs <==> f.password != "" && |f.password| < MinLength
    ensures MissingUppercase in errs <==> f.password != "" && !Contains(f.password, Upper)
    ensures MissingLowercase in errs <==> f.password != "" && !Contains(f.password, Lower)
    ensures MissingNumber in errs <==> f.password != "" && !Contains(f.password, Digit)
    ensures MissingSpecialChar in errs <==> f.password != "" && !Contains(f.password, Special)
    ensures f.password == "" ==> errs * PasswordRuleErrors == {}
    ensures f.password != "" ==>
              (errs * PasswordRuleErrors == {} <==> Validation(f.password).AllHold())
  {
    var passwordRules :=
      if f.password == "" then {PasswordRequired}
      else
        (if |f.password| < MinLength then {TooShort} else {})
        + (if !Contains(f.password, Upper) then {MissingUppercase} else {})
        + (if !Contains(f.password, Lower) then {MissingLowercase} else {})
        + (if !Contains(f.password, Digit) then {MissingNumber} else {})
        + (if !Contains(f.password, Special) then {MissingSpecialChar} else {});
    var confirmRules :=
      if f.confirmPassword == "" then {ConfirmRequired}
      else if f.confirmPassword != f.password then {PasswordsMustMatch}
      else {};
    (if f.username == "" then {UsernameRequired} else {}) + passwordRules + confirmRules
  }

  /** The five length and pattern rules on the password. */
  const PasswordRuleErrors: set<SchemaError> :=
    {TooShort, MissingUppercase, MissingLowercase, MissingNumber, MissingSpecialChar}

  /** An empty password and confirmation report only that both are required. */
  lemma EmptyPasswordReportsRequired()
    ensures SchemaErrors(RegisterForm("bob", "", "")) == {PasswordRequired, ConfirmRequired}
  {
  }

  /** A compliant password with an empty confirmation reports only that the
      confirmation is required, not that the two differ. */
  lemma EmptyConfirmationReportsRequired()
    ensures SchemaErrors(RegisterForm("bob", "Abcdef1!", "")) == {ConfirmRequired}
  {
    AllConditionsExample();
  }

  /** The toast a submission ends with, or the schema errors that stopped it. */
  datatype RegisterOutcome =
    | Invalid(errors: set<SchemaError>)
    | Registered
    | UsernameTaken
    | SomethingWentWrong

  datatype RegisterResult = RegisterResult(outcome: RegisterOutcome, store: Store)

  /** `handleRegister`: read the list (an absent key is the empty list), reject
      a name some record already has, otherwise append the new record and write
      the list back. A read, parse or write failure ends in the generic error. */
  function HandleRegister(username: string, password: string, store: Store, device: Device): (r: RegisterResult)
    ensures r.outcome != Registered ==> r.store == store
    ensures r.store.credentials == store.credentials
    ensures !r.outcome.Invalid?
    ensures r.outcome == UsernameTaken <==>
              device.readable && ListOrEmpty(store.users).Some? && Find(ListOrEmpty(store.users).value, username).Some?
    ensures r.outcome == Registered <==>
              device.readable && device.writable && ListOrEmpty(store.users).Some? && Find(ListOrEmpty(store.users).value, username).None?
    ensures r.outcome == Registered ==>
              r.store.users == Some(Records(ListOrEmpty(store.users).value + [UserRecord(username, password)]))
  {
    if !device.readable then RegisterResult(SomethingWentWrong, store)
    else match ListOrEmpty(store.users)
      case None => RegisterResult(SomethingWentWrong, store)
      case Some(users) =>
        if Find(users, username).Some? then RegisterResult(UsernameTaken, store)
        else if !device.writable then RegisterResult(SomethingWentWrong, store)
        else RegisterResult(Registered, store.(users := Some(Records(users + [UserRecord(username, password)]))))
  }

  /** Pressing Register: the schema runs first and the handler only on a valid
      form, so every record this writes has a non-empty name and a password
      meeting the whole policy. */
  function SubmitRegister(f: RegisterForm, store: Store, device: Device): (r: RegisterResult)
    ensures r.outcome.Invalid? <==> SchemaErrors(f) != {}
    ensures r.outcome.Invalid? ==> r.outcome.errors == SchemaErrors(f) && r.store == store
    ensures r.outcome == Registered ==> f.username != "" && Validation(f.password).AllHold()
    ensures SchemaErrors(f) == {} ==> r == HandleRegister(f.username, f.password, store, device)
  {
    var errors := SchemaErrors(f);
    if errors != {} then RegisterResult(Invalid(errors), store)
    else HandleRegister(f.username, f.password, store, device)
  }

  /** On a store where `users` was never written, a registration stores a list
      holding just the new record. */
  lemma FirstRegistration(username: string, password: string, credentials: Option<CredentialsPayload>)
    ensures HandleRegister(username, password, Store(None, credentials), Device(true, true)).store
            == Store(Some(Records([UserRecord(username, password)])), credentials)
  {
    assert [] + [UserRecord(username, password)] == [UserRecord(username, password)];
  }

  /** A name already in the list is refused whatever the password, and nothing
      is written. */
  lemma DuplicateRefused(users: seq<UserRecord>, i: nat, password: string, credentials: Option<CredentialsPayload>, device: Device)
    requires i < |users|
    requires device.readable
    ensures HandleRegister(users[i].username, password, Store(Some(Records(users)), credentials), device)
            == RegisterResult(UsernameTaken, Store(Some(Records(users)), credentials))
  {
    assert users[i] in users;
  }

  /** Registration keeps earlier records in place and in order, and keeps
      stored usernames pairwise distinct. */
  lemma RegisterKeepsUnique(username: string, password: string, store: Store, device: Device)
    requires store.users.Some? && store.users.value.Records? ==> UniqueUsernames(store.users.value.users)
    ensures var r := HandleRegister(username, password, store, device);
            r.store.users.Some? && r.store.users.value.Records? ==> UniqueUsernames(r.store.users.value.users)
    ensures var r := HandleRegister(username, password, store, device);
            r.outcome == Registered ==>
              var before := ListOrEmpty(store.users).value;
              var after := r.store.users.value.users;
              |after| == |before| + 1 && after[..|before|] == before && after[|before|] == UserRecord(username, password)
  {
    var r := HandleRegister(username, password, store, device);
    if r.outcome == Registered {
      AppendKeepsUnique(ListOrEmpty(store.users).value, UserRecord(username, password));
    }
  }
}

=== FILE: session.dfy ===
/** The Redux store slice holding the session: its initial state and the
    reducer that answers `SET_USER`. */
module Session {
  import opened Optional
  import opened CredentialStore

  /** The value under `state.user`: `null` after a logout, the empty object of
      the initial state, or the stored record a successful login dispatched. */
  datatype User = NullUser | EmptyObject | Account(record: UserRecord)

  /** `user?.username`: neither `null` nor `{}` carries a username. */
  function Username(u: User): (name: Option<string>)
    ensures name.Some? <==> u.Account?
    ensures u.Account? ==> name == Some(u.record.username)
  {
    match u
    case Account(record) => Some(record.username)
    case _ => None
  }

  /** The reducer state: the session user and whatever other fields the state
      object carries, which the reducer passes through untouched. */
  datatype AppState = AppState(user: User, others: map<string, string>)

  /** `initialState`: an empty user object and no other field. */
  const InitialState: AppState := AppState(EmptyObject, map[])

  /** An action reaching the reducer: `SET_USER` with its `payload.user`, or
      an action of any other type. */
  datatype Action = SetUser(user: User) | OtherAction(kind: string)

  /** `reducer`: an undefined state is first replaced by `initialState`; then
      `SET_USER` installs the payload's user, keeping every other field, and any
      other action leaves the state as it is. */
  function Reduce(state: Option<AppState>, action: Action): (r: AppState)
    ensures action.SetUser? ==> r.user == action.user
    ensures r.others == state.GetOr(InitialState).others
    ensures action.OtherAction? ==> r == state.GetOr(InitialState)
  {
    var current := state.GetOr(InitialState);
    match action
    case SetUser(user) => current.(user := user)
    case OtherAction(_) => current
  }

  /** The initial state carries no username. */
  lemma InitialHasNoUsername()
    ensures Username(InitialState.user).None?
  {
  }

  /** Redux's first call, with an undefined state and a non-`SET_USER` action,
      yields the initial state. */
  lemma FirstCallYieldsInitial(kind: string)
    ensures Reduce(None, OtherAction(kind)) == InitialState
  {
  }

  /** `SET_USER` replaces the user whatever the previous one was: two states
      that differ only in their user agree after the same `SET_USER`. */
  lemma SetUserForgetsPrevious(s: AppState, t: AppState, u: User)
    requires s.others == t.others
    ensures Reduce(Some(s), SetUser(u)) == Reduce(Some(t), SetUser(u))
  {
  }

  /** Applying the same `SET_USER` twice is the same as applying it once. */
  lemma SetUserIdempotent(s: AppState, u: User)
    ensures Reduce(Some(Reduce(Some(s), SetUser(u))), SetUser(u)) == Reduce(Some(s), SetUser(u))
  {
  }
}
